=== FILE: README.md ===
# buildkite-update-initial-step, modelled in Dafny

The tool pushes one desired first step to many pipelines of a CI organisation. This project models
the part of `src/index.js` that decides what to push, and to which pipelines:

- the **exclusion filter**, which drops the pipelines listed in `repositories.exclude`;
- **`determineChanges`**, a fold over the pipelines. For each pipeline it first diffs the pipeline's
  first step against the desired `step`, key by key, using deep equality. It then back-fills every
  key of that first step that `step` leaves undefined;
- the **"No changes!"** exit when no pipeline differs;
- the **confirmation gate**, which deletes every slug whose answer is not `true`;
- **`doChanges`**, which builds the slug→pipeline lookup, sends `{steps: [step]}` for every
  remaining slug and collects the failures in `errs`.

JavaScript values are the datatype `Json.Json`. An object is a sequence of `Field(key, value)` in
`for...in` order, so a new key is appended at the end. A missing key (`undefined`) is `None` from
`Records.Get`. The change object is `ChangeSets.ChangeSet`: a key order plus a map from slug to
the list of changes. The module layout follows the program's components: `Differ`, `Merger`,
`ChangeSets`, `Aggregator` (the fold), `Pipelines` (the exclusion filter), `Confirmation`,
`Reconciler` and `Sync` (one run end to end).

The model follows the code exactly in these respects:

- The merge runs for **every** pipeline, not only the first. A key still undefined after
  pipeline *i* can be filled by a later pipeline. Pipeline *i* is diffed against the step merged
  from pipelines `0..i-1` only (`Aggregator.StepBefore`).
- The diff compares every key of `step`, including keys outside the recognised field list.
- The confirmation loop walks the answers, not the change set. A slug with no answer therefore
  survives (`Confirmation.Accepted`).
- A pipeline whose step list is empty has `initialStep === undefined`. Reading `initialStep[k]`
  then throws as soon as `step` has a key. The model ends the run with `Crashed(slug)`.
- Building the confirm questions can throw too. The message for a listed slug reads
  `change.new.green` (src/index.js:187), a TypeError when a change's new value is `null`. That
  happens when an earlier pipeline back-filled `null` into the step. The model ends the run with
  `QuestionCrashed(slug)` before any prompt or update (`Scenarios.NullBackfillMakesQuestionThrow`).
- Two pipelines with the same slug append to the same change list. The lookup keeps the last of
  them.

Inputs that the source receives from the outside world are parameters. These are the fetched
pipeline list, the operator's `answers` (a map from slug to boolean) and the update outcome per
slug (`outcome: string -> UpdateResult`).

## Model

| member | source | states |
|---|---|---|
| `Json.Truthy` | src/index.js:109 | JavaScript truthiness of a value, used by `initialStep[k] || 'Not Set'`; a definition without a contract of its own, characterised through `Differ.DiffEntries` |
| `Json.DeepEqual` | src/index.js:103 | the `equal` comparison; a definition without a contract of its own, characterised by `Json.DeepEqualReflexive`, `Json.DeepEqualIgnoresKeyOrder`, `Json.DeepEqualOnScalars`, `Json.DeepEqualOnArrays`, `Json.DeepEqualIsEquality`, `Records.DeepEqualSameKeys`, `Records.DeepEqualByKeys` and `Records.DeepEqualSymmetric`; together they fix the relation on scalars, on arrays and on objects with unique keys |
| `Json.DeepEqualReflexive` | src/index.js:103 | every value is deep-equal to itself, so an identical value is never reported |
| `Json.DeepEqualIgnoresKeyOrder` | src/index.js:103 | any reordering of an object's properties (the same properties as a multiset) is deep-equal to the original, so object comparison does not depend on key order |
| `Json.DeepEqualOnScalars` | src/index.js:103 | on null, booleans, numbers and strings, deep equality is plain equality |
| `Json.DeepEqualIsEquality` | src/index.js:103 | on values with no object inside, deep equality holds exactly when the values are equal, so arrays with any differing element are unequal |
| `Records.DeepEqualSameKeys` | src/index.js:103 | deep-equal objects with unique keys have exactly the same keys, and the values under each shared key are deep-equal |
| `Json.DeepEqualOnArrays` | src/index.js:103 | arrays are deep-equal exactly when they have the same length and deep-equal elements at each position |
| `Json.DeepEqualIgnoresNestedKeyOrder` | src/index.js:103 | key order is ignored below the top level as well: `[{x, y}]` is deep-equal to `[{y, x}]` |
| `Records.DeepEqualByKeys` | src/index.js:103 | the converse of `Records.DeepEqualSameKeys`: objects with unique keys, the same keys and deep-equal values under each key are deep-equal |
| `Records.DeepEqualSymmetric` | src/index.js:103 | on well-formed values, where every nested object has unique keys, deep equality is symmetric |
| `Records.Get` | src/index.js:103 | a property read is defined exactly when the key is present, and then yields the value of a property with that key |
| `Differ.OldOrNotSet` | src/index.js:109 | the old value of an entry; a definition without a contract of its own, characterised by `Differ.DiffEntries` |
| `Differ.Same` | src/index.js:103 | whether the pipeline's value under a key agrees with the desired one (a missing value agrees with nothing); a definition without a contract of its own, characterised by `Differ.DiffIff` |
| `Differ.Diff` | src/index.js:102-113 | soundness and completeness: every entry comes from a key of `step` whose value is not deep-equal to the pipeline's, with `newValue` the desired value and `oldValue` the pipeline's value or "Not Set"; every such key yields its entry |
| `Differ.DiffIff` | src/index.js:102-103 | a key is reported exactly when it is a key of `step` and `equal(initialStep[k], step[k])` fails; keys absent from `step` are never compared |
| `Differ.DiffEntries` | src/index.js:107-111 | each entry has `newValue = step[k]`, and `oldValue` is the pipeline's value when truthy, otherwise "Not Set" |
| `Differ.DiffOrder` | src/index.js:102-111 | entries follow the key order of `step`, and each key appears at most once per pipeline |
| `Differ.DiffEmptyIffAgrees` | src/index.js:102-106 | a pipeline yields no entry exactly when it agrees with every desired key |
| `Merger.Merge` | src/index.js:114-118 | the desired step is a prefix of the result, so nothing is overwritten; every key of the pipeline's step is defined afterwards; every added property comes from the pipeline's step and had an undefined key |
| `Merger.MergeKeepsOrder` | src/index.js:114-118 | the added properties appear in the order the pipeline's step lists them (`for...in` order) |
| `Merger.MergeAppendsMissing` | src/index.js:114-118 | for a pipeline step with unique keys, the result is exactly the desired step followed by the pipeline's properties whose key the desired step lacks, in their order |
| `Merger.MergeKeepsDefined` | src/index.js:114-118 | a key already defined keeps its value |
| `Merger.MergeBackfills` | src/index.js:114-118 | an undefined key receives the pipeline's value for it |
| `Merger.MergeKeys` | src/index.js:114-118 | the merged keys are exactly the desired keys plus the pipeline's keys |
| `Merger.MergeUnique` | src/index.js:114-118 | merging keeps object keys unique |
| `Merger.MergeCovered` | src/index.js:114-118 | when every key of the pipeline's step is already defined, merging changes nothing |
| `Merger.MergeIdempotent` | src/index.js:114-118 | re-applying the merge with the same pipeline step is a no-op |
| `ChangeSets.Add` | src/index.js:104-111 | entries are appended to the slug's list; a list is created, at the end of the key order, only with its first entry; well-formedness is kept |
| `ChangeSets.ValidOrder` | src/index.js:120 | in a well-formed change set the key list names exactly the slugs with changes, so it is empty exactly when nothing changed |
| `Pipelines.ExcludeList` | src/index.js:67-71 | the effective exclusion list; a definition without a contract of its own, characterised by `Pipelines.MissingExcludeKeepsAll` |
| `Pipelines.Exclude` | src/index.js:92 | the result is the order-preserving subsequence of the pipelines whose slug is not excluded, each kept as often as it occurs |
| `Pipelines.MissingExcludeKeepsAll` | src/index.js:67-71 | a missing `repositories` or `exclude` keeps every pipeline |
| `Aggregator.Visit` | src/index.js:100-118 | one iteration of the fold; a definition without a contract of its own, characterised by `Aggregator.DetermineChangesResult`, `Aggregator.DetermineChangesSucceeds` and `Aggregator.DetermineChangesCrashes` |
| `Aggregator.DetermineChanges` | src/index.js:98-119 | the fold over the pipelines; a definition without a contract of its own, characterised by the same three lemmas |
| `Aggregator.MergeAll` | src/index.js:100-119 | across the whole fold, the user's own properties stay first and unchanged |
| `Aggregator.DetermineChangesResult` | src/index.js:98-119 | the final step is the step merged from every pipeline; the change set is well-formed; each slug holds exactly the diffs of its pipelines, each taken against the step merged from the earlier pipelines |
| `Aggregator.DetermineChangesSucceeds` | src/index.js:100-103 | the fold does not throw unless a pipeline without steps meets a non-empty desired step |
| `Aggregator.DetermineChangesCrashes` | src/index.js:101-103 | the first pipeline without steps met with a non-empty desired step makes the fold throw |
| `Aggregator.ChangesOfPipeline` | src/index.js:100-112 | with unique slugs, a pipeline is listed exactly when its diff against the earlier-merged step is non-empty, and its list is that diff |
| `Aggregator.MergeAllUnique` | src/index.js:114-118 | back-filling from any number of pipelines keeps the desired step's keys unique |
| `Aggregator.ListedKeysAtVisit` | src/index.js:100-112 | at the moment pipeline *i* is processed, a key is listed for it exactly when the step merged so far has that key and `equal(initialStep[k], step[k])` fails |
| `Aggregator.ChangedSlugsArePipelines` | src/index.js:104-106 | only slugs of the processed pipelines are listed |
| `Aggregator.StepBeforeGrows` | src/index.js:114-118 | the step a later pipeline is compared with extends the step an earlier one is compared with |
| `Aggregator.DiffBeforeMerge` | src/index.js:100-119 | a key that only pipeline *i* supplies is not reported for *i*, but it is compared for every later pipeline |
| `Aggregator.AgreeingPipelineNotListed` | src/index.js:102-106 | a pipeline that agrees with the step it is compared with never appears in the change set |
| `Aggregator.IdenticalPipelinesYieldNoChanges` | src/index.js:98-123 | when all pipelines share a first step that agrees with the desired step, the change set is empty, so the run stops with "No changes!" |
| `Confirmation.MessageThrows` | src/index.js:182-194 | whether building the diff message for a slug throws: some change of it has a `null` new value, read as `change.new.green`; a definition without a contract of its own, characterised by `Confirmation.Ask` |
| `Confirmation.Ask` | src/index.js:130-136 | the question loop succeeds exactly when no name's message throws, and then asks one question per name in order; otherwise it fails with the first name whose message throws |
| `Confirmation.Questions` | src/index.js:127-136 | the questions are the change set's key order exactly when no listed slug's message throws; otherwise the failure names the first such slug in key order |
| `Confirmation.Accepted` | src/index.js:139-143 | whether a slug survives the answers: it has no answer or its answer is `true`; a definition without a contract of its own, characterised by `Confirmation.Confirm` |
| `Confirmation.Confirm` | src/index.js:139-143 | a slug survives exactly when it has no answer or its answer is `true`; survivors keep their lists and their order; nothing is added |
| `Confirmation.ConfirmValid` | src/index.js:139-143 | deleting slugs keeps the change set well-formed |
| `Confirmation.ConfirmAnswered` | src/index.js:139-143 | when every question is answered, exactly the slugs answered `true` survive |
| `Reconciler.SlugTable` | src/index.js:149-152 | the lookup has exactly the slugs of the pipelines, each mapped to a pipeline with that slug |
| `Reconciler.SlugTableIsLast` | src/index.js:149-152 | the lookup maps each slug to the last pipeline carrying it |
| `Reconciler.NoFailuresIffAllUpdated` | src/index.js:171-178 | when `errs` holds exactly the failing slugs, it is empty exactly when every update succeeded |
| `Reconciler.PushAll` | src/index.js:153-178 | each slug of the change set receives exactly one update, to the pipeline the lookup gives for it, with payload `[step]`; `errs` holds exactly the failing slugs as a multiset, each with its error; "All done!" is reported exactly when no update failed |
| `Reconciler.DoChanges` | src/index.js:148-179 | the same promises, with the lookup built from the selected pipelines, after exclusion |
| `Sync.Selected` | src/index.js:67-92 | the fetched pipelines minus the configured exclusions; a definition without a contract of its own, characterised by `Pipelines.Exclude` and `Pipelines.MissingExcludeKeepsAll` |
| `Sync.Run` | src/index.js:82-178 | a run throws in the fold exactly when the fold throws, with the fold's failing slug; it throws while building the questions exactly when the fold succeeds and some listed slug has a change with a `null` new value, with the slug `Confirmation.Questions` fails on; it stops with "No changes!" exactly when nothing differs; otherwise the questions are the key order of the computed change set and the confirmed set is that change set after the answers; exactly the confirmed slugs are updated, each once, with the final merged step; `errs` holds exactly the failing confirmed slugs with their errors, and "All done!" is reported exactly when none failed |
| `Scenarios.KeyDiffers` | src/index.js:102-119 | desired `{type: script, key: w}` against `{type: script, key: c}` with `c` not deep-equal to `w` gives the single change of `key` from `c` (or "Not Set") to `w`, and the merge adds nothing |
| `Scenarios.KeyBackfilled` | src/index.js:102-119 | desired `{type: script}` against `{type: script, key: c}` gives no change, and the merge back-fills `key` with `c` |
| `Scenarios.TwoOutdatedPipelines` | src/index.js:98-119 | `{type: script, command: w}` against two pipelines running another command `c` lists both, in order, each with the single change of `command` from `c` to `w`, and keeps the step as it is |
| `Scenarios.FirstPipelineCommandLeaksIntoOthers` | src/index.js:98-119 | with `{type: script}` desired, a first pipeline running `x` is not listed, but its `command` is merged in; a second pipeline running `y` is then listed with `command` going from `y` to `x`, and `x` is in the step that would be pushed |
| `Scenarios.NullBackfillMakesQuestionThrow` | src/index.js:98-136 | with `{type: script}` desired, a first pipeline holding `timeout: null` back-fills that `null`; a second pipeline with any other `timeout` is then the only one listed, with the change of `timeout` to `null`, and building its question fails on that slug |

## Left out

- Startup plumbing is not modelled. This covers argument handling, loading the configuration file and the token fallback to `BUILDKITE_TOKEN` with `process.exit` (src/index.js:11-26, 56-62). It is process and environment I/O.
- Configuration validation with `ht-schema` is not modelled (src/index.js:28-54). It is a foreign library. The desired step is taken as already validated.
- The CI service client is not modelled: `getOrganization`, `listPipelines` and `update` (src/index.js:73-96, 156). This includes the fetch-failure exit. The model takes the fetched pipelines and a per-slug outcome as parameters.
- The `async.each` fan-out (src/index.js:154) is not modelled. `Reconciler.PushAll` sends the updates one after another. Its contract is stated with multisets and claims no order.
- The interactive prompt is not modelled. `inquirer.prompt` becomes the `answers` map. The question text built by `getStepDiffMsg` (src/index.js:182-194) is left out because it is terminal formatting. Its one failure is kept: the TypeError on a `null` new value (`Confirmation.MessageThrows`). A non-string old or new value only prints `undefined` and does not throw.
- Console output is not modelled: colours, the per-pipeline ✓/✘ lines and the error text. The report keeps only "All done!" versus the failure list.
- Json.DeepEqual: `deep-equal` in its default loose mode compares scalars with `==`, so it also equates `0` and `false`, or `"1"` and `1`. It also compares arrays and objects by their own keys without checking which is an array, so `[]` and `{}` count as equal. The model uses strict structural equality instead, so it reports some differences that the library would not report. The library's `undefined`-versus-`null` case does not arise inside `Json.DeepEqual`. It is decided in `Differ.Same`.
- Differ.Same: the library's loose `==` makes `equal(undefined, null)` true, so the source does not report a desired `null` against a missing key. `Differ.Same` lets a missing value agree with nothing, so the model reports that pair as a change.
- Numbers are modelled as mathematical reals. NaN, -0 and floating-point rounding are not represented.
- Object keys are enumerated in insertion order. JavaScript lists integer-like keys (such as a slug `"123"`) first, in numeric order. That rule is not modelled. It only changes the order of entries and questions.
- Prototype properties are not modelled. A slug such as `"constructor"` makes `changes[slug]` truthy before any list exists, so the push would throw.

=== FILE: aggregator.dfy ===
/**
 * The change aggregator (`determineChanges`): a fold over the pipelines that diffs each pipeline's
 * first step against the desired step and then back-fills the desired step from it.
 */
module Aggregator {
  import opened Wrappers
  import opened Json
  import opened Records
  import opened Differ
  import opened Merger
  import opened ChangeSets
  import opened Pipelines
  import opened Seqs

  /** What the loop over the pipelines threads along: the (mutated) desired step and the change set. */
  datatype State = State(step: Record, changes: ChangeSet)

  /**
   * One iteration of the fold (src/index.js:100-118). A pipeline without steps has no first step, and
   * reading a property of it throws a TypeError as soon as the desired step has a key; the error
   * carries the slug.
   */
  function Visit(st: State, p: Pipeline): Result<State, string> {
    if |p.steps| == 0 then
      if |st.step| == 0 then Ok(st) else Err(p.slug)
    else
      var initial := p.steps[0];
      Ok(State(Merge(st.step, initial), Add(st.changes, p.slug, Diff(st.step, initial))))
  }

  /** The fold over `pipelines` in order, starting from the user's step and an empty change set. */
  function DetermineChanges(step: Record, ps: seq<Pipeline>): Result<State, string>
    decreases |ps|
  {
    if |ps| == 0 then Ok(State(step, Empty))
    else
      var n := |ps| - 1;
      match DetermineChanges(step, ps[..n])
      case Err(slug) => Err(slug)
      case Ok(st) => Visit(st, ps[n])
  }

  /** The desired step after back-filling from the first steps of `ps`, taken in order. */
  function MergeAll(step: Record, ps: seq<Pipeline>): (r: Record)
    ensures |step| <= |r| && r[..|step|] == step
    decreases |ps|
  {
    if |ps| == 0 then step
    else
      var n := |ps| - 1;
      var before := MergeAll(step, ps[..n]);
      if |ps[n].steps| == 0 then before
      else
        var r := Merge(before, ps[n].steps[0]);
        assert r[..|before|][..|step|] == r[..|step|];
        r
  }

  /** The desired step that pipeline `i` is compared with: merged from pipelines `0..i-1` only. */
  function StepBefore(step: Record, ps: seq<Pipeline>, i: nat): Record
    requires i <= |ps|
  {
    MergeAll(step, ps[..i])
  }

  /** Every change reported under slug `s`: the diffs of the pipelines carrying that slug, in order. */
  function Collected(step: Record, ps: seq<Pipeline>, s: string): seq<Change>
    decreases |ps|
  {
    if |ps| == 0 then []
    else
      var n := |ps| - 1;
      Collected(step, ps[..n], s) +
        (if ps[n].slug == s && |ps[n].steps| > 0 then Diff(MergeAll(step, ps[..n]), ps[n].steps[0]) else [])
  }

  /** Pipeline slugs are unique (as the CI service guarantees). */
  predicate UniqueSlugs(ps: seq<Pipeline>) {
    forall i, j :: 0 <= i < j < |ps| ==> ps[i].slug != ps[j].slug
  }

  /** A pipeline without steps is harmless only while the desired step is still empty. */
  predicate NoCrash(step: Record, ps: seq<Pipeline>) {
    forall i :: 0 <= i < |ps| && |ps[i].steps| == 0 ==> StepBefore(step, ps, i) == []
  }

  lemma PrefixOfPrefix(ps: seq<Pipeline>, n: nat, i: nat)
    requires i <= n <= |ps|
    ensures ps[..n][..i] == ps[..i]
  {
  }

  /**
   * `st` is the state of the fold after `ps`: its step is the step merged from every pipeline, its
   * change set is well-formed, and each slug holds exactly the diffs collected for it.
   */
  ghost predicate Describes(step: Record, ps: seq<Pipeline>, st: State) {
    && st.step == MergeAll(step, ps)
    && Valid(st.changes)
    && forall s :: ChangesOf(st.changes, s) == Collected(step, ps, s)
  }

  /** One step of the fold keeps the relation between the state and the reference definitions. */
  lemma VisitKeepsResult(step: Record, pre: seq<Pipeline>, st: State, p: Pipeline)
    requires Describes(step, pre, st) && Visit(st, p).Ok?
    ensures Describes(step, pre + [p], Visit(st, p).value)
  {
    var ps := pre + [p];
    assert ps[..|ps| - 1] == pre;
    var next := Visit(st, p).value;
    forall s
      ensures ChangesOf(next.changes, s) == Collected(step, ps, s)
    {
      assert Collected(step, ps, s) == Collected(step, pre, s) +
        (if p.slug == s && |p.steps| > 0 then Diff(MergeAll(step, pre), p.steps[0]) else []);
    }
  }

  /**
   * The fold's result: the final step is the step merged from every pipeline, the change set is
   * well-formed, and each slug holds exactly the concatenated diffs of the pipelines with that slug.
   */
  lemma {:induction false} DetermineChangesResult(step: Record, ps: seq<Pipeline>)
    requires DetermineChanges(step, ps).Ok?
    ensures Describes(step, ps, DetermineChanges(step, ps).value)
    decreases |ps|
  {
    if |ps| > 0 {
      var n := |ps| - 1;
      var pre := ps[..n];
      DetermineChangesResult(step, pre);
      assert pre + [ps[n]] == ps;
      VisitKeepsResult(step, pre, DetermineChanges(step, pre).value, ps[n]);
    }
  }

  /** The fold does not throw when no pipeline without steps is met after the desired step got a key. */
  lemma {:induction false} DetermineChangesSucceeds(step: Record, ps: seq<Pipeline>)
    requires NoCrash(step, ps)
    ensures DetermineChanges(step, ps).Ok?
    decreases |ps|
  {
    if |ps| > 0 {
      var n := |ps| - 1;
      forall i | 0 <= i < n && |ps[..n][i].steps| == 0
        ensures StepBefore(step, ps[..n], i) == []
      {
        PrefixOfPrefix(ps, n, i);
      }
      DetermineChangesSucceeds(step, ps[..n]);
      DetermineChangesResult(step, ps[..n]);
      assert ps[..n] == ps[..n][..n];
    }
  }

  /** The first pipeline without steps met after the desired step got a key makes the fold throw. */
  lemma {:induction false} DetermineChangesCrashes(step: Record, ps: seq<Pipeline>, i: nat)
    requires i < |ps| && |ps[i].steps| == 0 && StepBefore(step, ps, i) != []
    requires NoCrash(step, ps[..i])
    ensures DetermineChanges(step, ps) == Err(ps[i].slug)
    decreases |ps|
  {
    var n := |ps| - 1;
    var pre := ps[..n];
    if i < n {
      PrefixOfPrefix(ps, n, i);
      assert pre[i] == ps[i];
      assert StepBefore(step, pre, i) == StepBefore(step, ps, i);
      DetermineChangesCrashes(step, pre, i);
    } else {
      assert pre == ps[..i];
      DetermineChangesSucceeds(step, pre);
      DetermineChangesResult(step, pre);
      var st := DetermineChanges(step, pre).value;
      assert st.step == StepBefore(step, ps, i);
      assert Visit(st, ps[n]) == Err(ps[i].slug);
    }
  }

  /** A slug that no pipeline carries collects nothing. */
  lemma {:induction false} CollectedAbsent(step: Record, ps: seq<Pipeline>, s: string)
    requires forall i :: 0 <= i < |ps| ==> ps[i].slug != s
    ensures Collected(step, ps, s) == []
    decreases |ps|
  {
    if |ps| > 0 {
      var n := |ps| - 1;
      CollectedAbsent(step, ps[..n], s);
    }
  }

  /** With unique slugs, a pipeline's slug collects exactly that pipeline's own diff. */
  lemma {:induction false} CollectedUnique(step: Record, ps: seq<Pipeline>, i: nat)
    requires UniqueSlugs(ps) && i < |ps|
    ensures Collected(step, ps, ps[i].slug) ==
      if |ps[i].steps| > 0 then Diff(StepBefore(step, ps, i), ps[i].steps[0]) else []
    decreases |ps|
  {
    var n := |ps| - 1;
    if i < n {
      PrefixOfPrefix(ps, n, i);
      assert ps[..n][i] == ps[i];
      CollectedUnique(step, ps[..n], i);
    } else {
      CollectedAbsent(step, ps[..n], ps[i].slug);
    }
  }

  /**
   * With unique slugs, pipeline `i` is listed exactly when its first step differs from the step
   * merged from the earlier pipelines, and its list is that diff.
   */
  lemma ChangesOfPipeline(step: Record, ps: seq<Pipeline>, i: nat)
    requires DetermineChanges(step, ps).Ok?
    requires UniqueSlugs(ps) && i < |ps| && |ps[i].steps| > 0
    ensures ChangesOf(DetermineChanges(step, ps).value.changes, ps[i].slug) ==
      Diff(StepBefore(step, ps, i), ps[i].steps[0])
    ensures ps[i].slug in DetermineChanges(step, ps).value.changes.lists <==>
      Diff(StepBefore(step, ps, i), ps[i].steps[0]) != []
  {
    DetermineChangesResult(step, ps);
    CollectedUnique(step, ps, i);
  }

  /** Back-filling from any number of pipelines keeps the desired step's keys unique. */
  lemma {:induction false} MergeAllUnique(step: Record, ps: seq<Pipeline>)
    requires UniqueKeys(step)
    ensures UniqueKeys(MergeAll(step, ps))
    decreases |ps|
  {
    if |ps| > 0 {
      var n := |ps| - 1;
      MergeAllUnique(step, ps[..n]);
      if |ps[n].steps| > 0 {
        MergeUnique(MergeAll(step, ps[..n]), ps[n].steps[0]);
      }
    }
  }

  /**
   * At the moment pipeline `i` is processed, a key is listed for it exactly when the step merged so
   * far has that key and the pipeline's value for it is not deep-equal to the desired one.
   */
  lemma ListedKeysAtVisit(step: Record, ps: seq<Pipeline>, i: nat, k: string)
    requires DetermineChanges(step, ps).Ok?
    requires UniqueKeys(step) && UniqueSlugs(ps) && i < |ps| && |ps[i].steps| > 0
    ensures k in ChangedKeys(ChangesOf(DetermineChanges(step, ps).value.changes, ps[i].slug)) <==>
      k in Keys(StepBefore(step, ps, i)) &&
      !Same(Get(ps[i].steps[0], k), Get(StepBefore(step, ps, i), k).value)
  {
    ChangesOfPipeline(step, ps, i);
    MergeAllUnique(step, ps[..i]);
    DiffIff(StepBefore(step, ps, i), ps[i].steps[0], k);
  }

  /** Only slugs of the given pipelines are ever listed. */
  lemma ChangedSlugsArePipelines(step: Record, ps: seq<Pipeline>, s: string)
    requires DetermineChanges(step, ps).Ok?
    requires s in DetermineChanges(step, ps).value.changes.lists
    ensures exists i :: 0 <= i < |ps| && ps[i].slug == s
  {
    DetermineChangesResult(step, ps);
    if forall i :: 0 <= i < |ps| ==> ps[i].slug != s {
      CollectedAbsent(step, ps, s);
    }
  }

  /** The step seen by pipeline `j` extends the step seen by pipeline `j - 1`. */
  lemma StepBeforeNext(step: Record, ps: seq<Pipeline>, j: nat)
    requires 0 < j <= |ps|
    ensures |StepBefore(step, ps, j - 1)| <= |StepBefore(step, ps, j)|
    ensures StepBefore(step, ps, j)[..|StepBefore(step, ps, j - 1)|] == StepBefore(step, ps, j - 1)
  {
    PrefixOfPrefix(ps, j, j - 1);
    var before := MergeAll(step, ps[..j][..j - 1]);
    assert before == StepBefore(step, ps, j - 1);
  }

  /** The steps seen by later pipelines extend the steps seen by earlier ones. */
  lemma {:induction false} StepBeforeGrows(step: Record, ps: seq<Pipeline>, i: nat, j: nat)
    requires i <= j <= |ps|
    ensures |StepBefore(step, ps, i)| <= |StepBefore(step, ps, j)|
    ensures StepBefore(step, ps, j)[..|StepBefore(step, ps, i)|] == StepBefore(step, ps, i)
    decreases j
  {
    if i < j {
      StepBeforeGrows(step, ps, i, j - 1);
      StepBeforeNext(step, ps, j);
      PrefixTransitive(StepBefore(step, ps, i), StepBefore(step, ps, j - 1), StepBefore(step, ps, j));
    }
  }

  /**
   * Diff before merge: a key that only pipeline `i` itself supplies is not reported for `i`, but it
   * is part of the step every later pipeline is compared with.
   */
  lemma DiffBeforeMerge(step: Record, ps: seq<Pipeline>, i: nat, j: nat, k: string)
    requires i < j <= |ps| && |ps[i].steps| > 0
    requires k in Keys(ps[i].steps[0]) && k !in Keys(StepBefore(step, ps, i))
    ensures k !in ChangedKeys(Diff(StepBefore(step, ps, i), ps[i].steps[0]))
    ensures k in Keys(StepBefore(step, ps, j))
  {
    var before := StepBefore(step, ps, i);
    var cs := Diff(before, ps[i].steps[0]);
    if k in ChangedKeys(cs) {
      var n :| 0 <= n < |cs| && cs[n].key == k;
      assert cs[n] in cs;
      KeysMembership(before, k);
    }
    PrefixOfPrefix(ps, i + 1, i);
    assert StepBefore(step, ps, i + 1) == Merge(before, ps[i].steps[0]);
    StepBeforeGrows(step, ps, i + 1, j);
    KeysPrefix(StepBefore(step, ps, i + 1), StepBefore(step, ps, j));
  }

  /** With unique slugs, a pipeline that agrees with the step it is compared with is never listed. */
  lemma AgreeingPipelineNotListed(step: Record, ps: seq<Pipeline>, i: nat)
    requires DetermineChanges(step, ps).Ok?
    requires UniqueSlugs(ps) && i < |ps| && |ps[i].steps| > 0
    requires Agrees(StepBefore(step, ps, i), ps[i].steps[0])
    ensures ps[i].slug !in DetermineChanges(step, ps).value.changes.lists
  {
    ChangesOfPipeline(step, ps, i);
    DiffEmptyIffAgrees(StepBefore(step, ps, i), ps[i].steps[0]);
  }

  /** When every pipeline agrees with the step it is compared with, nothing is collected. */
  lemma {:induction false} CollectedNothing(step: Record, ps: seq<Pipeline>, s: string)
    requires forall i :: 0 <= i < |ps| && |ps[i].steps| > 0 ==> Agrees(StepBefore(step, ps, i), ps[i].steps[0])
    ensures Collected(step, ps, s) == []
    decreases |ps|
  {
    if |ps| > 0 {
      var n := |ps| - 1;
      var pre := ps[..n];
      forall i | 0 <= i < n && |pre[i].steps| > 0
        ensures Agrees(StepBefore(step, pre, i), pre[i].steps[0])
      {
        PrefixOfPrefix(ps, n, i);
        assert pre[i] == ps[i];
        assert StepBefore(step, pre, i) == StepBefore(step, ps, i);
      }
      CollectedNothing(step, pre, s);
      if |ps[n].steps| > 0 {
        assert StepBefore(step, ps, n) == MergeAll(step, pre);
        DiffEmptyIffAgrees(StepBefore(step, ps, n), ps[n].steps[0]);
      }
    }
  }

  /** Back-filling from a step with unique keys keeps agreement with that step. */
  lemma MergeKeepsAgreement(step: Record, initial: Record)
    requires UniqueKeys(initial) && Agrees(step, initial)
    ensures Agrees(Merge(step, initial), initial)
  {
    var r := Merge(step, initial);
    forall m | 0 <= m < |r|
      ensures Same(Get(initial, r[m].key), r[m].value)
    {
      if m < |step| {
        assert r[m] == step[m];
      } else {
        var j :| 0 <= j < |initial| && initial[j] == r[m];
        GetUnique(initial, j);
        DeepEqualReflexive(r[m].value);
      }
    }
  }

  /** When all pipelines share one first step, every step compared with it agrees with it. */
  lemma {:induction false} SharedStepAgrees(step: Record, ps: seq<Pipeline>, shared: Record, i: nat)
    requires forall j :: 0 <= j < |ps| ==> |ps[j].steps| > 0 && ps[j].steps[0] == shared
    requires UniqueKeys(shared) && Agrees(step, shared)
    requires i <= |ps|
    ensures Agrees(StepBefore(step, ps, i), shared)
    decreases i
  {
    if i > 0 {
      SharedStepAgrees(step, ps, shared, i - 1);
      PrefixOfPrefix(ps, i, i - 1);
      MergeKeepsAgreement(StepBefore(step, ps, i - 1), shared);
    } else {
      assert ps[..0] == [];
    }
  }

  /**
   * All pipelines share one first step that agrees with the user's step on the user's keys:
   * the fold succeeds and the change set is empty.
   */
  lemma IdenticalPipelinesYieldNoChanges(step: Record, ps: seq<Pipeline>, shared: Record)
    requires forall j :: 0 <= j < |ps| ==> |ps[j].steps| > 0 && ps[j].steps[0] == shared
    requires UniqueKeys(shared) && Agrees(step, shared)
    ensures DetermineChanges(step, ps).Ok?
    ensures DetermineChanges(step, ps).value.changes.order == []
  {
    DetermineChangesSucceeds(step, ps);
    DetermineChangesResult(step, ps);
    forall i | 0 <= i < |ps| && |ps[i].steps| > 0
      ensures Agrees(StepBefore(step, ps, i), ps[i].steps[0])
    {
      SharedStepAgrees(step, ps, shared, i);
    }
    var cs := DetermineChanges(step, ps).value.changes;
    forall s | s in cs.lists
      ensures false
    {
      CollectedNothing(step, ps, s);
    }
    assert cs.lists == map[];
    ValidOrder(cs, "");
  }
}

=== FILE: changesets.dfy ===
/** The change set: a JavaScript object from pipeline slug to that pipeline's list of changes. */
module ChangeSets {
  import opened Differ

  /**
   * `order` is the key order of the change object, `lists` its contents.
   */
  datatype ChangeSet = ChangeSet(order: seq<string>, lists: map<string, seq<Change>>)

  /** The empty object `{}`. */
  const Empty: ChangeSet := ChangeSet([], map[])

  /**
   * Well-formed change set: every slug of `lists` appears exactly once in `order` and no other slug
   * does, and no list is empty (lists are created on their first push).
   */
  ghost predicate Valid(cs: ChangeSet) {
    && (forall s :: multiset(cs.order)[s] == if s in cs.lists then 1 else 0)
    && (forall s :: s in cs.lists ==> cs.lists[s] != [])
  }

  /** The changes recorded under `s`, the empty list when there are none. */
  function ChangesOf(cs: ChangeSet, s: string): seq<Change> {
    if s in cs.lists then cs.lists[s] else []
  }

  /**
   * Records the changes `es` of the pipeline `s` the way `determineChanges` pushes them: the list
   * for `s` is created, at the end of the key order, only when the first entry is pushed.
   */
  function Add(cs: ChangeSet, s: string, es: seq<Change>): (r: ChangeSet)
    ensures forall t :: ChangesOf(r, t) == ChangesOf(cs, t) + (if t == s then es else [])
    ensures r.order == if es == [] || s in cs.lists then cs.order else cs.order + [s]
    ensures Valid(cs) ==> Valid(r)
  {
    if es == [] then cs
    else if s in cs.lists then ChangeSet(cs.order, cs.lists[s := cs.lists[s] + es])
    else ChangeSet(cs.order + [s], cs.lists[s := es])
  }

  /** In a valid change set the key order names exactly the slugs that have changes. */
  lemma ValidOrder(cs: ChangeSet, s: string)
    requires Valid(cs)
    ensures s in cs.order <==> s in cs.lists
    ensures cs.order == [] <==> cs.lists == map[]
  {
    if cs.order != [] {
      assert multiset(cs.order)[cs.order[0]] > 0;
    }
    if cs.lists != map[] {
      var t :| t in cs.lists;
      assert multiset(cs.order)[t] == 1;
    }
  }
}

=== FILE: confirmation.dfy ===
/** The confirmation gate (`promptChanges`): one yes/no question per listed pipeline. */
module Confirmation {
  import opened Wrappers
  import opened Seqs
  import opened Differ
  import opened ChangeSets

  /**
   * Building the question for `s` throws: its message reads `change.new.green`, a TypeError when
   * some change of `s` has a `null` new value. (`change.old` is never `null`: it falls back to
   * "Not Set".)
   */
  predicate MessageThrows(cs: ChangeSet, s: string) {
    exists c :: c in ChangesOf(cs, s) && c.newValue.Null?
  }

  /**
   * The confirm questions for `names`, built one after another: the first name whose message throws
   * ends the loop with that name, and otherwise there is one question per name, in order.
   */
  function Ask(cs: ChangeSet, names: seq<string>): (r: Result<seq<string>, string>)
    ensures r.Ok? <==> forall i :: 0 <= i < |names| ==> !MessageThrows(cs, names[i])
    ensures r.Ok? ==> r.value == names
    ensures r.Err? ==> exists i :: FirstThrowing(cs, names, i) && names[i] == r.error
  {
    if names == [] then Ok([])
    else if MessageThrows(cs, names[0]) then Err(names[0])
    else
      var rest := Ask(cs, names[1..]);
      if rest.Err? then
        FirstThrowingCons(cs, names);
        Err(rest.error)
      else Ok([names[0]] + rest.value)
  }

  /** `names[i]` is the first of `names` whose message throws. */
  predicate FirstThrowing(cs: ChangeSet, names: seq<string>, i: int) {
    && 0 <= i < |names|
    && MessageThrows(cs, names[i])
    && forall j :: 0 <= j < i ==> !MessageThrows(cs, names[j])
  }

  lemma FirstThrowingCons(cs: ChangeSet, names: seq<string>)
    requires names != [] && !MessageThrows(cs, names[0])
    ensures forall i :: FirstThrowing(cs, names[1..], i) ==> FirstThrowing(cs, names, i + 1)
  {
    forall i | FirstThrowing(cs, names[1..], i)
      ensures FirstThrowing(cs, names, i + 1)
    {
      forall j | 0 <= j < i + 1
        ensures !MessageThrows(cs, names[j])
      {
        if j > 0 {
          assert names[j] == names[1..][j - 1];
        }
      }
    }
  }

  /** The confirm questions, one per slug in the key order of the change set (`promptChanges`). */
  function Questions(cs: ChangeSet): (r: Result<seq<string>, string>)
    ensures r.Ok? <==> forall s :: s in cs.order ==> !MessageThrows(cs, s)
    ensures r.Ok? ==> r.value == cs.order
    ensures r.Err? ==> exists i :: FirstThrowing(cs, cs.order, i) && cs.order[i] == r.error
  {
    Ask(cs, cs.order)
  }

  /**
   * A slug survives unless the operator's answer for it exists and is not `true`: the loop walks
   * the answers, not the change set, and deletes the list of every slug answered otherwise.
   */
  predicate Accepted(answers: map<string, bool>, s: string) {
    s !in answers || answers[s]
  }

  /**
   * The change set after the answers are applied: the accepted slugs keep their lists unchanged
   * and their relative order, the others are deleted, and nothing is added.
   */
  function Confirm(cs: ChangeSet, answers: map<string, bool>): (r: ChangeSet)
    ensures Subseq(r.order, cs.order)
    ensures forall s :: s in r.order <==> s in cs.order && Accepted(answers, s)
    ensures forall s :: s in r.lists <==> s in cs.lists && Accepted(answers, s)
    ensures forall s :: s in r.lists ==> r.lists[s] == cs.lists[s]
  {
    var keep := (s: string) => Accepted(answers, s);
    FilterIsSubseq(cs.order, keep);
    ChangeSet(Filter(cs.order, keep), map s | s in cs.lists && keep(s) :: cs.lists[s])
  }

  /** Deleting answered-no slugs keeps the change set well-formed. */
  lemma ConfirmValid(cs: ChangeSet, answers: map<string, bool>)
    requires Valid(cs)
    ensures Valid(Confirm(cs, answers))
  {
    var r := Confirm(cs, answers);
    var keep := (s: string) => Accepted(answers, s);
    assert r.order == Filter(cs.order, keep);
    forall s
      ensures multiset(r.order)[s] == if s in r.lists then 1 else 0
    {
      assert multiset(r.order)[s] == if keep(s) then multiset(cs.order)[s] else 0;
    }
  }

  /** When every question is answered, exactly the slugs answered `true` survive. */
  lemma ConfirmAnswered(cs: ChangeSet, answers: map<string, bool>, s: string)
    requires forall t :: t in cs.order ==> t in answers
    ensures s in Confirm(cs, answers).order <==> s in cs.order && answers[s]
  {
  }
}

=== FILE: differ.dfy ===
/** The field differ: compares the desired step with a pipeline's first step, key by key. */
module Differ {
  import opened Wrappers
  import opened Json
  import opened Records
  import opened Seqs

  /** One reported difference `{key, old, new}`. */
  datatype Change = Change(key: string, oldValue: Json, newValue: Json)

  /** The marker shown when the pipeline's value is missing or falsy. */
  const NotSet: Json := Str("Not Set")

  /**
   * The old value an entry reports: the pipeline's value when it is truthy, otherwise "Not Set"
   * (src/index.js:109).
   */
  function OldOrNotSet(actual: Option<Json>): Json {
    if actual.Some? && Truthy(actual.value) then actual.value else NotSet
  }

  /**
   * The pipeline's value agrees with a desired value when it is present and deep-equal to it; a
   * missing value agrees with nothing (src/index.js:103).
   */
  predicate Same(actual: Option<Json>, desired: Json) {
    actual.Some? && DeepEqual(actual.value, desired)
  }

  /** The keys of a list of changes, in order. */
  function ChangedKeys(cs: seq<Change>): seq<string> {
    seq(|cs|, i requires 0 <= i < |cs| => cs[i].key)
  }

  /**
   * The changes for one pipeline: one entry per property of the desired `step` whose value is not
   * deep-equal to the pipeline's value under the same key, visited in the order of `step`'s keys.
   */
  function Diff(step: Record, initial: Record): (cs: seq<Change>)
    ensures forall c :: c in cs ==>
      exists i :: 0 <= i < |step| && !Same(Get(initial, step[i].key), step[i].value) &&
        c == Change(step[i].key, OldOrNotSet(Get(initial, step[i].key)), step[i].value)
    ensures forall i :: 0 <= i < |step| && !Same(Get(initial, step[i].key), step[i].value) ==>
      Change(step[i].key, OldOrNotSet(Get(initial, step[i].key)), step[i].value) in cs
  {
    if |step| == 0 then []
    else
      var f := step[0];
      var rest := Diff(step[1..], initial);
      assert forall i :: 1 <= i < |step| ==> step[i] == step[1..][i - 1];
      if Same(Get(initial, f.key), f.value) then rest
      else [Change(f.key, OldOrNotSet(Get(initial, f.key)), f.value)] + rest
  }

  /** Every desired property agrees with the pipeline's value under its key. */
  predicate Agrees(step: Record, initial: Record) {
    forall i :: 0 <= i < |step| ==> Same(Get(initial, step[i].key), step[i].value)
  }

  /** A key is reported exactly when it is a key of `step` and the two values are not deep-equal. */
  lemma DiffIff(step: Record, initial: Record, k: string)
    requires UniqueKeys(step)
    ensures k in ChangedKeys(Diff(step, initial)) <==>
      k in Keys(step) && !Same(Get(initial, k), Get(step, k).value)
  {
    var cs := Diff(step, initial);
    if k in ChangedKeys(cs) {
      var n :| 0 <= n < |cs| && cs[n].key == k;
      assert cs[n] in cs;
      var i :| 0 <= i < |step| && !Same(Get(initial, step[i].key), step[i].value) &&
        cs[n] == Change(step[i].key, OldOrNotSet(Get(initial, step[i].key)), step[i].value);
      GetUnique(step, i);
    }
    if k in Keys(step) && !Same(Get(initial, k), Get(step, k).value) {
      var i :| 0 <= i < |step| && step[i].key == k;
      GetUnique(step, i);
      var c := Change(step[i].key, OldOrNotSet(Get(initial, step[i].key)), step[i].value);
      assert c in cs;
      var n :| 0 <= n < |cs| && cs[n] == c;
      assert ChangedKeys(cs)[n] == k;
    }
  }

  /** Each entry carries the desired value as `newValue` and the pipeline's value, or the marker, as `oldValue`. */
  lemma DiffEntries(step: Record, initial: Record)
    requires UniqueKeys(step)
    ensures forall c :: c in Diff(step, initial) ==>
      Get(step, c.key) == Some(c.newValue) &&
      (c.oldValue == if Get(initial, c.key).Some? && Truthy(Get(initial, c.key).value) then Get(initial, c.key).value else NotSet)
  {
    forall c | c in Diff(step, initial)
      ensures Get(step, c.key) == Some(c.newValue)
    {
      var i :| 0 <= i < |step| && !Same(Get(initial, step[i].key), step[i].value) &&
        c == Change(step[i].key, OldOrNotSet(Get(initial, step[i].key)), step[i].value);
      GetUnique(step, i);
    }
  }

  /** Entries follow the key order of `step`, and no key is reported twice for one pipeline. */
  lemma {:induction false} DiffOrder(step: Record, initial: Record)
    requires UniqueKeys(step)
    ensures Subseq(ChangedKeys(Diff(step, initial)), Keys(step))
    ensures forall i, j :: 0 <= i < j < |Diff(step, initial)| ==> Diff(step, initial)[i].key != Diff(step, initial)[j].key
  {
    if |step| > 0 {
      var f := step[0];
      var tail := step[1..];
      var rest := Diff(tail, initial);
      UniqueTail(step);
      DiffOrder(tail, initial);
      DiffKeysAvoid(tail, initial, f.key);
      assert Keys(step) == [f.key] + Keys(tail);
      assert Keys(step)[1..] == Keys(tail);
      if !Same(Get(initial, f.key), f.value) {
        var cs := [Change(f.key, OldOrNotSet(Get(initial, f.key)), f.value)] + rest;
        assert cs[1..] == rest;
        assert ChangedKeys(cs) == [f.key] + ChangedKeys(rest);
        assert ChangedKeys(cs)[1..] == ChangedKeys(rest);
        ConsDistinct(cs[0], rest);
      }
    }
  }

  /** A key that no property of `step` carries is never reported. */
  lemma DiffKeysAvoid(step: Record, initial: Record, k: string)
    requires forall g :: g in step ==> g.key != k
    ensures forall c :: c in Diff(step, initial) ==> c.key != k
  {
    forall c | c in Diff(step, initial)
      ensures c.key != k
    {
      var i :| 0 <= i < |step| && !Same(Get(initial, step[i].key), step[i].value) &&
        c == Change(step[i].key, OldOrNotSet(Get(initial, step[i].key)), step[i].value);
      assert step[i] in step;
    }
  }

  /** Putting a change in front of changes with other, distinct keys keeps the keys distinct. */
  lemma ConsDistinct(c: Change, rest: seq<Change>)
    requires forall e :: e in rest ==> e.key != c.key
    requires forall i, j :: 0 <= i < j < |rest| ==> rest[i].key != rest[j].key
    ensures forall i, j :: 0 <= i < j < |[c] + rest| ==> ([c] + rest)[i].key != ([c] + rest)[j].key
  {
    var cs := [c] + rest;
    forall i, j | 0 <= i < j < |cs|
      ensures cs[i].key != cs[j].key
    {
      if i == 0 {
        assert cs[j] == rest[j - 1];
        assert rest[j - 1] in rest;
      } else {
        assert cs[i] == rest[i - 1] && cs[j] == rest[j - 1];
      }
    }
  }

  /** A pipeline yields no changes exactly when it agrees with every desired property. */
  lemma DiffEmptyIffAgrees(step: Record, initial: Record)
    ensures Diff(step, initial) == [] <==> Agrees(step, initial)
  {
    if !Agrees(step, initial) {
      var i :| 0 <= i < |step| && !Same(Get(initial, step[i].key), step[i].value);
      assert Change(step[i].key, OldOrNotSet(Get(initial, step[i].key)), step[i].value) in Diff(step, initial);
    }
  }
}

=== FILE: json.dfy ===
/** JSON-like JavaScript values, their truthiness and the deep structural equality used to diff steps. */
module Json {

  /** A JavaScript value as it appears in a step: a JSON document. */
  datatype Json =
    | Null
    | Bool(b: bool)
    | Num(n: real)
    | Str(s: string)
    | Arr(items: seq<Json>)
    | Obj(fields: seq<Field>)

  /** One own property of an object, in `for...in` order. */
  datatype Field = Field(key: string, value: Json)

  /** JavaScript truthiness: `null`, `false`, `0` and `""` are falsy; arrays and objects are truthy. */
  predicate Truthy(j: Json) {
    match j
    case Null => false
    case Bool(b) => b
    case Num(n) => n != 0.0
    case Str(s) => s != ""
    case Arr(_) => true
    case Obj(_) => true
  }

  /**
   * Deep structural equality: exact on scalars, element-wise and order-sensitive on arrays,
   * and on objects the same number of keys with every key of `a` carrying a deep-equal value in `b`
   * (independent of key order).
   */
  predicate DeepEqual(a: Json, b: Json)
    decreases a
  {
    match a
    case Null => b.Null?
    case Bool(x) => b.Bool? && b.b == x
    case Num(x) => b.Num? && b.n == x
    case Str(x) => b.Str? && b.s == x
    case Arr(xs) =>
      b.Arr? && |xs| == |b.items| &&
      forall i :: 0 <= i < |xs| ==> DeepEqual(xs[i], b.items[i])
    case Obj(fs) =>
      b.Obj? && |fs| == |b.fields| &&
      forall i :: 0 <= i < |fs| ==> HasEqualField(fs[i], b.fields)
  }

  /** Some property of `gs` has the key of `f` and a value deep-equal to that of `f`. */
  predicate HasEqualField(f: Field, gs: seq<Field>)
    decreases f
  {
    exists j :: 0 <= j < |gs| && gs[j].key == f.key && DeepEqual(f.value, gs[j].value)
  }

  /** Every value is deep-equal to itself. */
  lemma {:induction false} DeepEqualReflexive(a: Json)
    ensures DeepEqual(a, a)
    decreases a
  {
    match a
    case Arr(xs) =>
      forall i | 0 <= i < |xs|
        ensures DeepEqual(xs[i], xs[i])
      {
        DeepEqualReflexive(xs[i]);
      }
    case Obj(fs) =>
      forall i | 0 <= i < |fs|
        ensures HasEqualField(fs[i], fs)
      {
        DeepEqualReflexive(fs[i].value);
      }
    case _ =>
  }

  /** Object comparison ignores the order in which keys were inserted: any reordering of the properties is deep-equal. */
  lemma DeepEqualIgnoresKeyOrder(fs: seq<Field>, gs: seq<Field>)
    requires multiset(fs) == multiset(gs)
    ensures DeepEqual(Obj(fs), Obj(gs))
  {
    assert |fs| == |multiset(fs)| == |multiset(gs)| == |gs|;
    forall i | 0 <= i < |fs|
      ensures HasEqualField(fs[i], gs)
    {
      assert fs[i] in multiset(gs);
      var j :| 0 <= j < |gs| && gs[j] == fs[i];
      DeepEqualReflexive(fs[i].value);
    }
  }

  /** On scalars deep equality is plain equality. */
  lemma DeepEqualOnScalars(a: Json, b: Json)
    requires !a.Arr? && !a.Obj?
    ensures DeepEqual(a, b) <==> a == b
  {
  }

  /** Arrays are deep-equal exactly when they have the same length and deep-equal elements, in order. */
  lemma DeepEqualOnArrays(xs: seq<Json>, ys: seq<Json>)
    ensures DeepEqual(Arr(xs), Arr(ys)) <==>
      |xs| == |ys| && forall i :: 0 <= i < |xs| ==> DeepEqual(xs[i], ys[i])
  {
  }

  /** Key order is ignored below the top level too: inside an array, `[{x, y}]` equals `[{y, x}]`. */
  lemma DeepEqualIgnoresNestedKeyOrder(x: Field, y: Field)
    ensures DeepEqual(Arr([Obj([x, y])]), Arr([Obj([y, x])]))
  {
    DeepEqualIgnoresKeyOrder([x, y], [y, x]);
    DeepEqualOnArrays([Obj([x, y])], [Obj([y, x])]);
  }

  /** A value with no object anywhere inside it: a scalar, or an array of such values. */
  predicate NoObjects(a: Json)
    decreases a
  {
    match a
    case Obj(_) => false
    case Arr(xs) => forall i :: 0 <= i < |xs| ==> NoObjects(xs[i])
    case _ => true
  }

  /**
   * Without objects, where key order could differ, deep equality is exactly equality: arrays are
   * compared element by element, and any differing element makes them unequal.
   */
  lemma {:induction false} DeepEqualIsEquality(a: Json, b: Json)
    requires NoObjects(a)
    ensures DeepEqual(a, b) <==> a == b
    decreases a
  {
    match a
    case Arr(xs) =>
      if b == a {
        DeepEqualReflexive(a);
      }
      if DeepEqual(a, b) {
        var ys := b.items;
        forall i | 0 <= i < |xs|
          ensures xs[i] == ys[i]
        {
          DeepEqualIsEquality(xs[i], ys[i]);
        }
        assert xs == ys;
      }
    case Obj(_) =>
    case _ =>
  }
}

=== FILE: merger.dfy ===
/** The desired-step merger: back-fills every property the desired step leaves undefined. */
module Merger {
  import opened Json
  import opened Records
  import opened Seqs

  /**
   * The back-fill of src/index.js:114-118: the pipeline's properties are visited in `for...in`
   * order, and each one whose key the desired step leaves undefined is appended to it.
   */
  function Merge(step: Record, initial: Record): (r: Record)
    ensures |step| <= |r| && r[..|step|] == step
    ensures forall k :: k in Keys(initial) ==> k in Keys(r)
    ensures forall i :: |step| <= i < |r| ==> r[i] in initial && r[i].key !in Keys(step)
    decreases |initial|
  {
    if |initial| == 0 then step
    else
      var f := initial[0];
      var next := if Get(step, f.key).None? then step + [f] else step;
      assert Keys(initial) == [f.key] + Keys(initial[1..]);
      var r := Merge(next, initial[1..]);
      KeysAppendOne(step, f);
      assert f.key in Keys(next);
      KeysPrefix(next, r);
      assert forall i :: 0 <= i < |next| ==> r[i] == next[i];
      r
  }

  /** The back-filled properties are appended in the order the pipeline's step lists them. */
  lemma {:induction false} MergeKeepsOrder(step: Record, initial: Record)
    ensures Subseq(Merge(step, initial)[|step|..], initial)
    decreases |initial|
  {
    if |initial| > 0 {
      var next := if Get(step, initial[0].key).None? then step + [initial[0]] else step;
      MergeKeepsOrder(next, initial[1..]);
      AddedInOrder(step, next, initial, Merge(next, initial[1..]));
    }
  }

  /** One visit either leaves the step alone or appends the visited property, so order is kept. */
  lemma {:induction false} AddedInOrder(step: Record, next: Record, initial: Record, r: Record)
    requires |initial| > 0
    requires next == step || next == step + [initial[0]]
    requires |next| <= |r| && r[..|next|] == next
    requires Subseq(r[|next|..], initial[1..])
    ensures Subseq(r[|step|..], initial)
  {
    var added := r[|step|..];
    if next == step {
      assert added == r[|next|..];
      assert Subseq(added, initial[1..]);
    } else {
      assert added[0] == initial[0];
      assert added[1..] == r[|next|..];
      assert Subseq(added[1..], initial[1..]);
    }
  }

  /** The test the back-fill applies to a property: is its key undefined in `step`? */
  function LacksKey(step: Record): Field -> bool {
    (f: Field) => f.key !in Keys(step)
  }

  /** Appending a property does not change which properties with other keys are missing. */
  lemma LacksKeyAppend(step: Record, f: Field, rest: Record)
    requires forall g :: g in rest ==> g.key != f.key
    ensures forall g :: g in rest ==> LacksKey(step + [f])(g) == LacksKey(step)(g)
  {
    KeysAppendOne(step, f);
  }

  /**
   * For a pipeline step with unique keys (as every JavaScript object has), the merge is the desired
   * step followed by exactly those properties of the pipeline's step whose key it lacks, in order.
   */
  lemma {:induction false} MergeAppendsMissing(step: Record, initial: Record)
    requires UniqueKeys(initial)
    ensures Merge(step, initial) == step + Filter(initial, LacksKey(step))
    decreases |initial|
  {
    var lacks := LacksKey(step);
    if |initial| > 0 {
      var f := initial[0];
      var rest := initial[1..];
      var next := if Get(step, f.key).None? then step + [f] else step;
      var kept := Filter(rest, lacks);
      assert Merge(step, initial) == Merge(next, rest);
      assert Filter(initial, lacks) == if lacks(f) then [f] + kept else kept;
      assert next == if lacks(f) then step + [f] else step;
      assert Filter(rest, LacksKey(next)) == kept by {
        if lacks(f) {
          UniqueTail(initial);
          LacksKeyAppend(step, f, rest);
          FilterAgree(rest, LacksKey(next), lacks);
        }
      }
      assert UniqueKeys(rest) by {
        UniqueTail(initial);
      }
      MergeAppendsMissing(next, rest);
      if lacks(f) {
        AppendAssoc(step, [f], kept);
      }
    }
  }

  /** Merging never overwrites: a key already defined keeps its value. */
  lemma MergeKeepsDefined(step: Record, initial: Record, k: string)
    requires k in Keys(step)
    ensures Get(Merge(step, initial), k) == Get(step, k)
  {
    var r := Merge(step, initial);
    assert r == step + r[|step|..];
    GetAppend(step, r[|step|..], k);
  }

  /** A key the desired step lacks takes the pipeline's value for it. */
  lemma {:induction false} MergeBackfills(step: Record, initial: Record, k: string)
    requires k !in Keys(step)
    ensures Get(Merge(step, initial), k) == Get(initial, k)
    decreases |initial|
  {
    if |initial| > 0 {
      var f := initial[0];
      var next := if Get(step, f.key).None? then step + [f] else step;
      KeysAppendOne(step, f);
      if f.key == k {
        assert k in Keys(next);
        MergeKeepsDefined(next, initial[1..], k);
        GetAppend(step, [f], k);
      } else {
        MergeBackfills(next, initial[1..], k);
      }
    }
  }

  /** The merged step has exactly the keys of the desired step and of the pipeline's step. */
  lemma MergeKeys(step: Record, initial: Record, k: string)
    ensures k in Keys(Merge(step, initial)) <==> k in Keys(step) || k in Keys(initial)
  {
    var r := Merge(step, initial);
    if k in Keys(r) {
      var i :| 0 <= i < |r| && Keys(r)[i] == k;
      if i < |step| {
        assert r[i] == step[i];
        assert Keys(step)[i] == k;
      } else {
        var j :| 0 <= j < |initial| && initial[j] == r[i];
        assert Keys(initial)[j] == k;
      }
    }
    if k in Keys(step) {
      KeysPrefix(step, r);
    }
  }

  /** Merging keeps keys unique. */
  lemma {:induction false} MergeUnique(step: Record, initial: Record)
    requires UniqueKeys(step)
    ensures UniqueKeys(Merge(step, initial))
    decreases |initial|
  {
    if |initial| > 0 {
      var f := initial[0];
      var next := if Get(step, f.key).None? then step + [f] else step;
      MergeUnique(next, initial[1..]);
    }
  }

  /** When the desired step already defines every key of the pipeline's step, merging changes nothing. */
  lemma {:induction false} MergeCovered(step: Record, initial: Record)
    requires forall k :: k in Keys(initial) ==> k in Keys(step)
    ensures Merge(step, initial) == step
    decreases |initial|
  {
    if |initial| > 0 {
      assert Keys(initial) == [initial[0].key] + Keys(initial[1..]);
      MergeCovered(step, initial[1..]);
    }
  }

  /** Re-applying the merge with the same pipeline step is a no-op. */
  lemma MergeIdempotent(step: Record, initial: Record)
    ensures Merge(Merge(step, initial), initial) == Merge(step, initial)
  {
    MergeCovered(Merge(step, initial), initial);
  }
}

=== FILE: pipelines.dfy ===
/** Pipelines as fetched from the CI service, and the exclusion filter applied to them. */
module Pipelines {
  import opened Wrappers
  import opened Records
  import opened Seqs

  /** A pipeline: its slug and its step list (`pipeline.data.steps`). */
  datatype Pipeline = Pipeline(slug: string, steps: seq<Record>)

  /** The `repositories` section of the configuration. */
  datatype Repositories = Repositories(exclude: Option<seq<string>>)

  /** The effective exclusion list: a missing section or a missing `exclude` is the empty list. */
  function ExcludeList(repositories: Option<Repositories>): seq<string> {
    match repositories
    case None => []
    case Some(Repositories(exclude)) => if exclude.Some? then exclude.value else []
  }

  /**
   * The exclusion filter (src/index.js:92): the pipelines whose slug is not in the exclude list, as
   * an order-preserving subsequence that keeps every occurrence of each survivor.
   */
  function Exclude(pipelines: seq<Pipeline>, exclude: seq<string>): (r: seq<Pipeline>)
    ensures Subseq(r, pipelines)
    ensures forall p :: p in r <==> p in pipelines && p.slug !in exclude
    ensures forall p :: multiset(r)[p] == if p.slug in exclude then 0 else multiset(pipelines)[p]
  {
    FilterIsSubseq(pipelines, (p: Pipeline) => p.slug !in exclude);
    Filter(pipelines, (p: Pipeline) => p.slug !in exclude)
  }

  /** Without a `repositories.exclude` list every fetched pipeline is kept, in order. */
  lemma MissingExcludeKeepsAll(repositories: Option<Repositories>, pipelines: seq<Pipeline>)
    requires repositories.None? || repositories.value.exclude.None?
    ensures Exclude(pipelines, ExcludeList(repositories)) == pipelines
  {
    FilterKeepAll(pipelines, (p: Pipeline) => p.slug !in ExcludeList(repositories));
  }
}

=== FILE: reconciler.dfy ===
/** The reconciler (`doChanges`): pushes the merged step to every confirmed pipeline and accounts for failures. */
module Reconciler {
  import opened Records
  import opened ChangeSets
  import opened Pipelines

  /** `_pipelines`: slug to pipeline, later pipelines overwriting earlier ones with the same slug. */
  function SlugTable(ps: seq<Pipeline>): (t: map<string, Pipeline>)
    ensures forall s :: s in t <==> exists i :: 0 <= i < |ps| && ps[i].slug == s
    ensures forall s :: s in t ==> t[s] in ps && t[s].slug == s
    decreases |ps|
  {
    if |ps| == 0 then map[]
    else
      var n := |ps| - 1;
      var pre := ps[..n];
      var t := SlugTable(pre);
      assert ps == pre + [ps[n]];
      t[ps[n].slug := ps[n]]
  }

  /** The lookup holds, for each slug, the last pipeline carrying it. */
  lemma {:induction false} SlugTableIsLast(ps: seq<Pipeline>, i: nat)
    requires i < |ps|
    requires forall j :: i < j < |ps| ==> ps[j].slug != ps[i].slug
    ensures SlugTable(ps)[ps[i].slug] == ps[i]
    decreases |ps|
  {
    var n := |ps| - 1;
    if i < n {
      var pre := ps[..n];
      assert pre[i] == ps[i];
      SlugTableIsLast(pre, i);
    }
  }

  /** One update request: the pipeline looked up for a slug and its new step list. */
  datatype Update = Update(slug: string, pipeline: Pipeline, steps: seq<Record>)

  /** What the CI service answers to an update. */
  datatype UpdateResult = Updated | Failed(error: string)

  /** An element of `errs`: `{pipelineName, err}`. */
  datatype Failure = Failure(pipelineName: string, error: string)

  /** The final report: "All done!" or the list of failures. */
  datatype Report = AllDone | Errors(failures: seq<Failure>)

  /** The slugs the updates were sent to. */
  function UpdatedSlugs(us: seq<Update>): seq<string> {
    seq(|us|, i requires 0 <= i < |us| => us[i].slug)
  }

  /** The slugs recorded in `errs`. */
  function FailedNames(errs: seq<Failure>): seq<string> {
    seq(|errs|, i requires 0 <= i < |errs| => errs[i].pipelineName)
  }

  lemma FailedNamesAppend(errs: seq<Failure>, f: Failure)
    ensures FailedNames(errs + [f]) == FailedNames(errs) + [f.pipelineName]
  {
  }

  /** When `errs` holds exactly the failing slugs, it is empty exactly when every update succeeded. */
  lemma NoFailuresIffAllUpdated(order: seq<string>, errs: seq<Failure>, outcome: string -> UpdateResult)
    requires forall s :: multiset(FailedNames(errs))[s] == if outcome(s).Failed? then multiset(order)[s] else 0
    ensures errs == [] <==> forall s :: s in order ==> outcome(s) == Updated
  {
    if errs == [] {
      forall s | s in order
        ensures outcome(s) == Updated
      {
        assert multiset(FailedNames(errs))[s] == 0;
      }
    } else {
      var n := FailedNames(errs)[0];
      assert multiset(FailedNames(errs))[n] > 0;
      assert n in order && outcome(n) != Updated;
    }
  }

  /**
   * Sends the single merged step to every slug of the change set, looking each one up in `table`,
   * and collects the failures, never stopping at one. `outcome` stands for the CI service's answer
   * to each pipeline's update. The fan-out of the source is performed here one slug after another;
   * the contract speaks of multisets only, since the source fixes no order of completion.
   */
  method PushAll(table: map<string, Pipeline>, cs: ChangeSet, step: Record, outcome: string -> UpdateResult)
    returns (updates: seq<Update>, errs: seq<Failure>, report: Report)
    requires forall s :: s in cs.order ==> s in table
    ensures forall s :: multiset(UpdatedSlugs(updates))[s] == multiset(cs.order)[s]
    ensures forall u :: u in updates ==> u.slug in table && u.pipeline == table[u.slug] && u.steps == [step]
    ensures forall s :: multiset(FailedNames(errs))[s] == if outcome(s).Failed? then multiset(cs.order)[s] else 0
    ensures forall f :: f in errs ==> outcome(f.pipelineName) == Failed(f.error)
    ensures report == AllDone <==> errs == []
    ensures report == AllDone <==> forall s :: s in cs.order ==> outcome(s) == Updated
    ensures report.Errors? ==> report.failures == errs
  {
    updates, errs := [], [];
    var i := 0;
    while i < |cs.order|
      invariant 0 <= i <= |cs.order|
      invariant UpdatedSlugs(updates) == cs.order[..i]
      invariant forall u :: u in updates ==> u.slug in table && u.pipeline == table[u.slug] && u.steps == [step]
      invariant forall s :: multiset(FailedNames(errs))[s] == if outcome(s).Failed? then multiset(cs.order[..i])[s] else 0
      invariant forall f :: f in errs ==> outcome(f.pipelineName) == Failed(f.error)
    {
      var name := cs.order[i];
      var pipeline := table[name];
      assert UpdatedSlugs(updates + [Update(name, pipeline, [step])]) == UpdatedSlugs(updates) + [name];
      updates := updates + [Update(name, pipeline, [step])];
      assert cs.order[..i + 1] == cs.order[..i] + [name];
      assert multiset(cs.order[..i + 1]) == multiset(cs.order[..i]) + multiset{name};
      var result := outcome(name);
      if result.Failed? {
        FailedNamesAppend(errs, Failure(name, result.error));
        assert multiset(FailedNames(errs + [Failure(name, result.error)])) == multiset(FailedNames(errs)) + multiset{name};
        errs := errs + [Failure(name, result.error)];
      }
      i := i + 1;
    }
    assert cs.order[..i] == cs.order;
    report := if errs == [] then AllDone else Errors(errs);
    NoFailuresIffAllUpdated(cs.order, errs, outcome);
  }

  /** `doChanges`: builds the slug lookup from the fetched pipelines, then pushes to every slug. */
  method DoChanges(ps: seq<Pipeline>, cs: ChangeSet, step: Record, outcome: string -> UpdateResult)
    returns (updates: seq<Update>, errs: seq<Failure>, report: Report)
    requires forall s :: s in cs.order ==> s in SlugTable(ps)
    ensures forall s :: multiset(UpdatedSlugs(updates))[s] == multiset(cs.order)[s]
    ensures forall u :: u in updates ==> u.slug in SlugTable(ps) && u.pipeline == SlugTable(ps)[u.slug] && u.steps == [step]
    ensures forall s :: multiset(FailedNames(errs))[s] == if outcome(s).Failed? then multiset(cs.order)[s] else 0
    ensures forall f :: f in errs ==> outcome(f.pipelineName) == Failed(f.error)
    ensures report == AllDone <==> errs == []
    ensures report == AllDone <==> forall s :: s in cs.order ==> outcome(s) == Updated
    ensures report.Errors? ==> report.failures == errs
  {
    updates, errs, report := PushAll(SlugTable(ps), cs, step, outcome);
  }
}

=== FILE: records.dfy ===
/**
 * A JavaScript object as an ordered sequence of own properties: property lookup,
 * `for...in` key order, and appending a new property at the end.
 */
module Records {
  import opened Wrappers
  import opened Json

  /** A plain JavaScript object (a step, for instance). */
  type Record = seq<Field>

  /** The keys in `for...in` order. */
  function Keys(r: Record): seq<string> {
    seq(|r|, i requires 0 <= i < |r| => r[i].key)
  }

  /** JavaScript objects never hold the same key twice. */
  predicate UniqueKeys(r: Record) {
    forall i, j :: 0 <= i < j < |r| ==> r[i].key != r[j].key
  }

  /** Reading property `k` of `r`; `None` stands for `undefined`. */
  function Get(r: Record, k: string): (v: Option<Json>)
    ensures v.Some? <==> k in Keys(r)
    ensures v.Some? ==> Field(k, v.value) in r
    ensures v.None? ==> forall i :: 0 <= i < |r| ==> r[i].key != k
  {
    if |r| == 0 then None
    else
      assert Keys(r) == [r[0].key] + Keys(r[1..]);
      if r[0].key == k then Some(r[0].value) else Get(r[1..], k)
  }

  /** A key belongs to an object exactly when some property carries it. */
  lemma KeysMembership(r: Record, k: string)
    ensures k in Keys(r) <==> exists i :: 0 <= i < |r| && r[i].key == k
  {
    if k in Keys(r) {
      var i :| 0 <= i < |r| && Keys(r)[i] == k;
    }
    if exists i :: 0 <= i < |r| && r[i].key == k {
      var i :| 0 <= i < |r| && r[i].key == k;
      assert Keys(r)[i] == k;
    }
  }

  /** Appending a property adds its key. */
  lemma KeysAppendOne(r: Record, f: Field)
    ensures Keys(r + [f]) == Keys(r) + [f.key]
    ensures f.key in Keys(r + [f])
  {
    assert Keys(r + [f])[|r|] == f.key;
  }

  /** Every key of a prefix is a key of the whole. */
  lemma KeysPrefix(a: Record, r: Record)
    requires |a| <= |r| && r[..|a|] == a
    ensures forall k :: k in Keys(a) ==> k in Keys(r)
  {
    forall k | k in Keys(a)
      ensures k in Keys(r)
    {
      var i :| 0 <= i < |a| && Keys(a)[i] == k;
      assert Keys(r)[i] == k;
    }
  }

  /** Dropping the first property of an object with unique keys leaves unique keys, none of them the first's. */
  lemma UniqueTail(r: Record)
    requires UniqueKeys(r) && |r| > 0
    ensures UniqueKeys(r[1..])
    ensures forall g :: g in r[1..] ==> g.key != r[0].key
  {
    var rest := r[1..];
    forall i, j | 0 <= i < j < |rest|
      ensures rest[i].key != rest[j].key
    {
      assert rest[i] == r[i + 1] && rest[j] == r[j + 1];
    }
    forall g | g in rest
      ensures g.key != r[0].key
    {
      var j :| 0 <= j < |rest| && rest[j] == g;
      assert r[j + 1] == g;
    }
  }

  /** In an object with unique keys, reading a property's key yields that property's value. */
  lemma {:induction false} GetUnique(r: Record, i: nat)
    requires UniqueKeys(r)
    requires i < |r|
    ensures Get(r, r[i].key) == Some(r[i].value)
  {
    if i > 0 {
      GetUnique(r[1..], i - 1);
    }
  }

  /** A read of a concatenation looks in the first part, then in the second. */
  lemma {:induction false} GetAppend(a: Record, b: Record, k: string)
    ensures Get(a + b, k) == if k in Keys(a) then Get(a, k) else Get(b, k)
  {
    if |a| > 0 {
      assert (a + b)[1..] == a[1..] + b;
      assert Keys(a) == [a[0].key] + Keys(a[1..]);
      GetAppend(a[1..], b, k);
    } else {
      assert a + b == b;
    }
  }

  /** Every object inside `j`, at any depth, has unique keys, as every JavaScript object does. */
  predicate WellFormed(j: Json)
    decreases j
  {
    match j
    case Arr(xs) => forall i :: 0 <= i < |xs| ==> WellFormed(xs[i])
    case Obj(fs) => UniqueKeys(fs) && forall i :: 0 <= i < |fs| ==> WellFormed(fs[i].value)
    case _ => true
  }

  /** The keys of `r` as a set. */
  function KeySet(r: Record): set<string> {
    set i | 0 <= i < |r| :: r[i].key
  }

  lemma KeySetMembership(r: Record, k: string)
    ensures k in Keys(r) <==> k in KeySet(r)
  {
    KeysMembership(r, k);
    if k in Keys(r) {
      var i :| 0 <= i < |r| && r[i].key == k;
      assert r[i].key in KeySet(r);
    }
  }

  /** With unique keys, there are as many distinct keys as properties. */
  lemma {:induction false} KeySetSize(r: Record)
    requires UniqueKeys(r)
    ensures |KeySet(r)| == |r|
  {
    if |r| > 0 {
      UniqueTail(r);
      KeySetSize(r[1..]);
      assert KeySet(r) == {r[0].key} + KeySet(r[1..]) by {
        forall k | k in KeySet(r)
          ensures k in {r[0].key} + KeySet(r[1..])
        {
          var i :| 0 <= i < |r| && r[i].key == k;
          if i > 0 {
            assert r[1..][i - 1] == r[i];
          }
        }
      }
      assert r[0].key !in KeySet(r[1..]);
    }
  }

  /** A subset of a finite set with as many elements is the whole set. */
  lemma SubsetSameSize(a: set<string>, b: set<string>)
    requires a <= b && |a| == |b|
    ensures a == b
  {
    if a != b {
      var x :| x in b && x !in a;
      assert a <= b - {x};
      SubsetSize(a, b - {x});
    }
  }

  /** A subset is no larger than its superset. */
  lemma {:induction false} SubsetSize(a: set<string>, b: set<string>)
    requires a <= b
    ensures |a| <= |b|
    decreases |b|
  {
    if a != {} {
      var x :| x in a;
      SubsetSize(a - {x}, b - {x});
    }
  }

  /**
   * Deep-equal objects with unique keys have the same keys, and the values under each key are
   * deep-equal: an object that misses a key, or has an extra one, is never deep-equal.
   */
  lemma DeepEqualSameKeys(fs: seq<Field>, gs: seq<Field>)
    requires UniqueKeys(fs) && UniqueKeys(gs) && DeepEqual(Obj(fs), Obj(gs))
    ensures forall k :: k in Keys(fs) <==> k in Keys(gs)
    ensures forall i, j :: 0 <= i < |fs| && 0 <= j < |gs| && fs[i].key == gs[j].key ==>
      DeepEqual(fs[i].value, gs[j].value)
  {
    assert KeySet(fs) <= KeySet(gs) by {
      forall k | k in KeySet(fs)
        ensures k in KeySet(gs)
      {
        var i :| 0 <= i < |fs| && fs[i].key == k;
        assert HasEqualField(fs[i], gs);
      }
    }
    KeySetSize(fs);
    KeySetSize(gs);
    SubsetSameSize(KeySet(fs), KeySet(gs));
    forall k
      ensures k in Keys(fs) <==> k in Keys(gs)
    {
      KeySetMembership(fs, k);
      KeySetMembership(gs, k);
    }
    forall i, j | 0 <= i < |fs| && 0 <= j < |gs| && fs[i].key == gs[j].key
      ensures DeepEqual(fs[i].value, gs[j].value)
    {
      assert HasEqualField(fs[i], gs);
      var j' :| 0 <= j' < |gs| && gs[j'].key == fs[i].key && DeepEqual(fs[i].value, gs[j'].value);
      assert j' == j;
    }
  }

  /**
   * Conversely, objects with unique keys, the same keys and deep-equal values under each key are
   * deep-equal, whatever the order of their keys and at any depth.
   */
  lemma DeepEqualByKeys(fs: seq<Field>, gs: seq<Field>)
    requires UniqueKeys(fs) && UniqueKeys(gs)
    requires forall k :: k in Keys(fs) <==> k in Keys(gs)
    requires forall i, j :: 0 <= i < |fs| && 0 <= j < |gs| && fs[i].key == gs[j].key ==>
      DeepEqual(fs[i].value, gs[j].value)
    ensures DeepEqual(Obj(fs), Obj(gs))
  {
    assert KeySet(fs) == KeySet(gs) by {
      forall k
        ensures k in KeySet(fs) <==> k in KeySet(gs)
      {
        KeySetMembership(fs, k);
        KeySetMembership(gs, k);
      }
    }
    KeySetSize(fs);
    KeySetSize(gs);
    forall i | 0 <= i < |fs|
      ensures HasEqualField(fs[i], gs)
    {
      KeysMembership(fs, fs[i].key);
      KeysMembership(gs, fs[i].key);
    }
  }

  /** On well-formed values deep equality is symmetric. */
  lemma {:induction false} DeepEqualSymmetric(a: Json, b: Json)
    requires WellFormed(a) && WellFormed(b) && DeepEqual(a, b)
    ensures DeepEqual(b, a)
    decreases a
  {
    match a
    case Arr(xs) =>
      forall i | 0 <= i < |xs|
        ensures DeepEqual(b.items[i], xs[i])
      {
        DeepEqualSymmetric(xs[i], b.items[i]);
      }
    case Obj(fs) =>
      var gs := b.fields;
      DeepEqualSameKeys(fs, gs);
      forall j | 0 <= j < |gs|
        ensures HasEqualField(gs[j], fs)
      {
        KeysMembership(gs, gs[j].key);
        KeysMembership(fs, gs[j].key);
        var i :| 0 <= i < |fs| && fs[i].key == gs[j].key;
        DeepEqualSymmetric(fs[i].value, gs[j].value);
      }
    case _ =>
  }
}

=== FILE: scenarios.dfy ===
/** Concrete runs of the change aggregator on two pipelines. */
module Scenarios {
  import opened Wrappers
  import opened Json
  import opened Records
  import opened Differ
  import opened Merger
  import opened ChangeSets
  import opened Pipelines
  import opened Aggregator
  import opened Confirmation

  /** The fold over two pipelines: visit the first, then the second. */
  lemma FoldOfTwo(step: Record, ps: seq<Pipeline>)
    requires |ps| == 2
    ensures DetermineChanges(step, ps) ==
      match Visit(State(step, Empty), ps[0])
      case Err(e) => Err(e)
      case Ok(st) => Visit(st, ps[1])
  {
    assert ps[..1][..0] == [];
    assert ps[..1][0] == ps[0];
    assert DetermineChanges(step, ps[..1][..0]) == Ok(State(step, Empty));
    assert DetermineChanges(step, ps[..1]) == Visit(State(step, Empty), ps[0]);
  }

  /** Visiting a pipeline whose `command` differs records that one change and leaves the step alone. */
  lemma VisitOutdated(st: State, p: Pipeline, wanted: string, current: string)
    requires st.step == [Field("type", Str("script")), Field("command", Str(wanted))]
    requires p.steps == [[Field("type", Str("script")), Field("command", Str(current))]]
    requires wanted != current && current != ""
    ensures Visit(st, p) ==
      Ok(State(st.step, Add(st.changes, p.slug, [Change("command", Str(current), Str(wanted))])))
  {
    VisitDiffering(st, p, "command", Str(wanted), Str(current));
  }

  /**
   * Desired `{type: "script", command: wanted}`; two pipelines both run `current`. Both are listed,
   * each with the single change of `command`, and the desired step is pushed unchanged.
   */
  lemma TwoOutdatedPipelines(desired: Record, actual: Record, wanted: string, current: string, a: string, b: string)
    requires desired == [Field("type", Str("script")), Field("command", Str(wanted))]
    requires actual == [Field("type", Str("script")), Field("command", Str(current))]
    requires wanted != current && current != "" && a != b
    ensures
      var change := [Change("command", Str(current), Str(wanted))];
      DetermineChanges(desired, [Pipeline(a, [actual]), Pipeline(b, [actual])]) ==
        Ok(State(desired, ChangeSet([a, b], map[a := change, b := change])))
  {
    var change := [Change("command", Str(current), Str(wanted))];
    FoldOfTwo(desired, [Pipeline(a, [actual]), Pipeline(b, [actual])]);
    VisitOutdated(State(desired, Empty), Pipeline(a, [actual]), wanted, current);
    VisitOutdated(State(desired, Add(Empty, a, change)), Pipeline(b, [actual]), wanted, current);
    ListTwo(a, b, change);
  }

  /** Adding the same non-empty changes under two slugs in turn lists both, in that order. */
  lemma ListTwo(a: string, b: string, es: seq<Change>)
    requires a != b && es != []
    ensures Add(Add(Empty, a, es), b, es) == ChangeSet([a, b], map[a := es, b := es])
  {
    var listed := Add(Empty, a, es);
    assert listed == ChangeSet([a], map[a := es]);
    assert b !in listed.lists;
    assert listed.lists[b := es] == map[a := es, b := es];
  }

  /** Visiting a pipeline that agrees on `type` lists nothing and back-fills its `command`. */
  lemma VisitAgreeing(st: State, p: Pipeline, current: string)
    requires st.step == [Field("type", Str("script"))]
    requires p.steps == [[Field("type", Str("script")), Field("command", Str(current))]]
    ensures Visit(st, p) == Ok(State(p.steps[0], st.changes))
  {
    VisitBackfilling(st, p, "command", Str(current));
  }

  /**
   * Desired `{type: "script"}`; the first pipeline runs `x`, the second `y`. The first is compared
   * on `type` only and is not listed, but its `command` is merged into the desired step, so the
   * second is listed with `command` going from `y` to `x`, and `x` is what every update would push.
   */
  lemma FirstPipelineCommandLeaksIntoOthers(desired: Record, stepA: Record, stepB: Record, x: string, y: string, a: string, b: string)
    requires desired == [Field("type", Str("script"))]
    requires stepA == [Field("type", Str("script")), Field("command", Str(x))]
    requires stepB == [Field("type", Str("script")), Field("command", Str(y))]
    requires x != y && y != ""
    ensures
      var change := [Change("command", Str(y), Str(x))];
      DetermineChanges(desired, [Pipeline(a, [stepA]), Pipeline(b, [stepB])]) ==
        Ok(State(stepA, ChangeSet([b], map[b := change])))
  {
    var change := [Change("command", Str(y), Str(x))];
    FoldOfTwo(desired, [Pipeline(a, [stepA]), Pipeline(b, [stepB])]);
    VisitAgreeing(State(desired, Empty), Pipeline(a, [stepA]), x);
    VisitOutdated(State(stepA, Empty), Pipeline(b, [stepB]), x, y);
    assert Add(Empty, b, change) == ChangeSet([b], map[b := change]);
  }

  /** `{type: "script", key: wanted}` against `{type: "script", key: current}`: `key` alone differs, and merging adds nothing. */
  lemma KeyDiffers(desired: Record, actual: Record, key: string, wanted: Json, current: Json)
    requires key != "type"
    requires desired == [Field("type", Str("script")), Field(key, wanted)]
    requires actual == [Field("type", Str("script")), Field(key, current)]
    requires !DeepEqual(current, wanted)
    ensures Diff(desired, actual) == [Change(key, OldOrNotSet(Some(current)), wanted)]
    ensures Merge(desired, actual) == desired
  {
    assert Diff(desired, actual) == [Change(key, OldOrNotSet(Some(current)), wanted)] by {
      assert Get(actual, "type") == Some(Str("script")) by {
        assert actual[0].key == "type";
      }
      assert Get(actual, key) == Some(current) by {
        assert actual[1..][0].key == key;
      }
      assert desired[1..][1..] == [];
      assert Diff(desired[1..], actual) == [Change(key, OldOrNotSet(Some(current)), wanted)];
    }
    assert Merge(desired, actual) == desired by {
      assert Get(desired, "type").Some? by {
        assert desired[0].key == "type";
      }
      assert Get(desired, key).Some? by {
        assert desired[1..][0].key == key;
      }
      assert actual[1..][1..] == [];
      assert Keys(actual) == Keys(desired);
      MergeCovered(desired, actual);
    }
  }

  /** `{type: "script"}` against `{type: "script", key: current}`: no change, and `key` is back-filled. */
  lemma KeyBackfilled(desired: Record, actual: Record, key: string, current: Json)
    requires key != "type"
    requires desired == [Field("type", Str("script"))]
    requires actual == [Field("type", Str("script")), Field(key, current)]
    ensures Diff(desired, actual) == []
    ensures Merge(desired, actual) == actual
  {
    assert Get(actual, "type") == Some(Str("script")) by {
      assert actual[0].key == "type";
    }
    assert desired[1..] == [];
    assert Get(desired, key) == None;
    assert actual[1..][1..] == [];
    assert desired + [actual[1]] == actual;
    assert Merge(desired + [actual[1]], actual[1..][1..]) == actual;
  }

  /** Visiting a pipeline that agrees on `type` lists nothing and back-fills its `key`. */
  lemma VisitBackfilling(st: State, p: Pipeline, key: string, current: Json)
    requires key != "type"
    requires st.step == [Field("type", Str("script"))]
    requires p.steps == [[Field("type", Str("script")), Field(key, current)]]
    ensures Visit(st, p) == Ok(State(p.steps[0], st.changes))
  {
    KeyBackfilled(st.step, p.steps[0], key, current);
  }

  /** Visiting a pipeline whose `key` differs records that one change and leaves the step alone. */
  lemma VisitDiffering(st: State, p: Pipeline, key: string, wanted: Json, current: Json)
    requires key != "type"
    requires st.step == [Field("type", Str("script")), Field(key, wanted)]
    requires p.steps == [[Field("type", Str("script")), Field(key, current)]]
    requires !DeepEqual(current, wanted)
    ensures Visit(st, p) ==
      Ok(State(st.step, Add(st.changes, p.slug, [Change(key, OldOrNotSet(Some(current)), wanted)])))
  {
    KeyDiffers(st.step, p.steps[0], key, wanted, current);
  }

  /** A change set listing one slug whose change has a `null` new value: its question throws. */
  lemma QuestionThrowsOnNull(s: string, es: seq<Change>)
    requires es != [] && es[0].newValue.Null?
    ensures Questions(ChangeSet([s], map[s := es])) == Err(s)
  {
    assert es[0] in ChangesOf(ChangeSet([s], map[s := es]), s);
  }

  /**
   * Desired `{type: "script"}`; the first pipeline holds `timeout: null`, the second another
   * `timeout`. The `null` is back-filled into the step, so the second pipeline is listed with a
   * change whose new value is `null`, and building its confirm question throws.
   */
  lemma NullBackfillMakesQuestionThrow(desired: Record, stepA: Record, stepB: Record, v: Json, a: string, b: string)
    requires desired == [Field("type", Str("script"))]
    requires stepA == [Field("type", Str("script")), Field("timeout", Null)]
    requires stepB == [Field("type", Str("script")), Field("timeout", v)]
    requires !v.Null?
    ensures
      var change := [Change("timeout", OldOrNotSet(Some(v)), Null)];
      DetermineChanges(desired, [Pipeline(a, [stepA]), Pipeline(b, [stepB])]) ==
        Ok(State(stepA, ChangeSet([b], map[b := change])))
    ensures Questions(DetermineChanges(desired, [Pipeline(a, [stepA]), Pipeline(b, [stepB])]).value.changes) == Err(b)
  {
    var change := [Change("timeout", OldOrNotSet(Some(v)), Null)];
    FoldOfTwo(desired, [Pipeline(a, [stepA]), Pipeline(b, [stepB])]);
    VisitBackfilling(State(desired, Empty), Pipeline(a, [stepA]), "timeout", Null);
    VisitDiffering(State(stepA, Empty), Pipeline(b, [stepB]), "timeout", Null, v);
    assert Add(Empty, b, change) == ChangeSet([b], map[b := change]);
    QuestionThrowsOnNull(b, change);
  }
}

=== FILE: seqs.dfy ===
/** Order-preserving filtering of sequences, shared by every filter of the program. */
module Seqs {

  /** `a` can be obtained from `b` by deleting elements, keeping the rest in order. */
  predicate Subseq<T(==,!new)>(a: seq<T>, b: seq<T>)
    decreases |b|
  {
    |a| == 0 ||
    (|b| > 0 && ((a[0] == b[0] && Subseq(a[1..], b[1..])) || Subseq(a, b[1..])))
  }

  /** `Array.prototype.filter`: the elements of `s` that `keep` accepts, in their order. */
  function Filter<T(==,!new)>(s: seq<T>, keep: T -> bool): (r: seq<T>)
    ensures |r| <= |s|
    ensures forall x :: x in r <==> x in s && keep(x)
    ensures forall x :: multiset(r)[x] == if keep(x) then multiset(s)[x] else 0
  {
    if |s| == 0 then []
    else
      assert s == [s[0]] + s[1..];
      var rest := Filter(s[1..], keep);
      if keep(s[0]) then [s[0]] + rest else rest
  }

  /** The filter keeps the survivors in their original order. */
  lemma {:induction false} FilterIsSubseq<T(!new)>(s: seq<T>, keep: T -> bool)
    ensures Subseq(Filter(s, keep), s)
  {
    if |s| > 0 {
      FilterIsSubseq(s[1..], keep);
      var rest := Filter(s[1..], keep);
      if keep(s[0]) {
        assert ([s[0]] + rest)[1..] == rest;
      }
    }
  }

  /** Concatenation is associative. */
  lemma AppendAssoc<T>(a: seq<T>, b: seq<T>, c: seq<T>)
    ensures a + b + c == a + (b + c)
  {
  }

  /** A prefix of a prefix is a prefix. */
  lemma PrefixTransitive<T>(a: seq<T>, b: seq<T>, c: seq<T>)
    requires |a| <= |b| && b[..|a|] == a
    requires |b| <= |c| && c[..|b|] == b
    ensures |a| <= |c| && c[..|a|] == a
  {
    assert c[..|b|][..|a|] == c[..|a|];
  }

  /** Two filters that agree on every element of `s` select the same elements. */
  lemma {:induction false} FilterAgree<T(!new)>(s: seq<T>, keep: T -> bool, keep': T -> bool)
    requires forall x :: x in s ==> keep(x) == keep'(x)
    ensures Filter(s, keep) == Filter(s, keep')
  {
    if |s| > 0 {
      FilterAgree(s[1..], keep, keep');
    }
  }

  /** A filter that keeps everything returns its input. */
  lemma {:induction false} FilterKeepAll<T(!new)>(s: seq<T>, keep: T -> bool)
    requires forall x :: x in s ==> keep(x)
    ensures Filter(s, keep) == s
  {
    if |s| > 0 {
      FilterKeepAll(s[1..], keep);
      assert s == [s[0]] + s[1..];
    }
  }
}

=== FILE: sync.dfy ===
/**
 * One run of the tool once its configuration is loaded and the pipelines are fetched:
 * exclusion, change detection, confirmation and reconciliation, in that order.
 */
module Sync {
  import opened Wrappers
  import opened Records
  import opened Seqs
  import opened ChangeSets
  import opened Pipelines
  import opened Aggregator
  import opened Confirmation
  import opened Reconciler

  /** How a run ends. */
  datatype RunResult =
    | Crashed(slug: string)
      // `determineChanges` threw on a pipeline without steps
    | QuestionCrashed(slug: string)
      // building the question for `slug` threw on a `null` new value, before any prompt
    | NoChanges
      // "No changes!": the process exits before any prompt or update
    | Reconciled(questions: seq<string>, confirmed: ChangeSet, step: Record,
                 updates: seq<Update>, errs: seq<Failure>, report: Report)

  /** The pipelines the run works on. */
  function Selected(repositories: Option<Repositories>, fetched: seq<Pipeline>): seq<Pipeline> {
    Exclude(fetched, ExcludeList(repositories))
  }

  /**
   * The run: `fetched` is the organisation's pipeline list, `answers` the operator's replies and
   * `outcome` the CI service's answer to each update.
   */
  method Run(repositories: Option<Repositories>, step: Record, fetched: seq<Pipeline>,
             answers: map<string, bool>, outcome: string -> UpdateResult)
    returns (r: RunResult)
    ensures r.Crashed? <==> DetermineChanges(step, Selected(repositories, fetched)).Err?
    ensures r.Crashed? ==> DetermineChanges(step, Selected(repositories, fetched)) == Err(r.slug)
    ensures r.QuestionCrashed? <==>
      && DetermineChanges(step, Selected(repositories, fetched)).Ok?
      && exists s :: s in DetermineChanges(step, Selected(repositories, fetched)).value.changes.order &&
           MessageThrows(DetermineChanges(step, Selected(repositories, fetched)).value.changes, s)
    ensures r.QuestionCrashed? ==>
      Questions(DetermineChanges(step, Selected(repositories, fetched)).value.changes) == Err(r.slug)
    ensures r.NoChanges? <==>
      DetermineChanges(step, Selected(repositories, fetched)).Ok? &&
      DetermineChanges(step, Selected(repositories, fetched)).value.changes.lists == map[]
    ensures r.Reconciled? ==> r.questions != [] && Subseq(r.confirmed.order, r.questions)
    ensures r.Reconciled? ==>
      && r.questions == DetermineChanges(step, Selected(repositories, fetched)).value.changes.order
      && r.confirmed == Confirm(DetermineChanges(step, Selected(repositories, fetched)).value.changes, answers)
    ensures r.Reconciled? ==> r.step == MergeAll(step, Selected(repositories, fetched))
    ensures r.Reconciled? ==> forall u :: u in r.updates ==>
      && u.pipeline in fetched
      && u.pipeline.slug == u.slug
      && u.slug !in ExcludeList(repositories)
      && u.slug in r.questions
      && Accepted(answers, u.slug)
      && u.steps == [r.step]
    ensures r.Reconciled? ==> forall s ::
      multiset(UpdatedSlugs(r.updates))[s] == (if s in r.questions && Accepted(answers, s) then 1 else 0)
    ensures r.Reconciled? ==> forall s ::
      multiset(FailedNames(r.errs))[s] == if outcome(s).Failed? then multiset(r.confirmed.order)[s] else 0
    ensures r.Reconciled? ==> forall f :: f in r.errs ==> outcome(f.pipelineName) == Failed(f.error)
    ensures r.Reconciled? ==> (r.report == AllDone <==> r.errs == [])
    ensures r.Reconciled? ==>
      (r.report == AllDone <==> forall s :: s in r.confirmed.order ==> outcome(s) == Updated)
  {
    var pipelines := Selected(repositories, fetched);
    var determined := DetermineChanges(step, pipelines);
    if determined.Err? {
      return Crashed(determined.error);
    }
    var st := determined.value;
    DetermineChangesResult(step, pipelines);
    ValidOrder(st.changes, "");
    if st.changes.order == [] {
      return NoChanges;
    }
    var asked := Questions(st.changes);
    if asked.Err? {
      return QuestionCrashed(asked.error);
    }
    var questions := asked.value;
    var confirmed := Confirm(st.changes, answers);
    ConfirmValid(st.changes, answers);
    var table := SlugTable(pipelines);
    forall s | s in confirmed.order
      ensures s in table
    {
      ValidOrder(st.changes, s);
      ChangedSlugsArePipelines(step, pipelines, s);
    }
    var updates, errs, report := DoChanges(pipelines, confirmed, st.step, outcome);
    forall s
      ensures multiset(UpdatedSlugs(updates))[s] == if s in questions && Accepted(answers, s) then 1 else 0
    {
      ValidOrder(st.changes, s);
      ValidOrder(confirmed, s);
    }
    forall u | u in updates
      ensures u.slug in questions && Accepted(answers, u.slug)
    {
      var i :| 0 <= i < |updates| && updates[i] == u;
      assert UpdatedSlugs(updates)[i] == u.slug;
      assert multiset(UpdatedSlugs(updates))[u.slug] > 0;
    }
    r := Reconciled(questions, confirmed, st.step, updates, errs, report);
  }
}

=== FILE: wrappers.dfy ===
/** Failure-carrying wrappers used throughout the model. */
module Wrappers {

  /** A value that may be absent; `None` plays the part of JavaScript's `undefined`. */
  datatype Option<+T> = None | Some(value: T)

  /** The outcome of a stage that can throw. */
  datatype Result<+T, +E> = Ok(value: T) | Err(error: E)
}
